=== FILE: README.md ===
# VPN gateway profile manager — Dafny model

The gateway manager keeps a registry of client devices (IP address → display name
and profile). It turns a device's profile into privileged `ip rule` and
`iptables` commands. Applying a profile always tears down the device's
routing-policy rule (into the VPN routing table) and its FORWARD DROP rule
against the local network. It then installs what the profile asks for:

- `"VPN"` adds the routing-policy rule.
- `"Sicher"` adds it and appends (`-A`) the DROP rule.
- Any other profile name, `"Normal"` included, installs nothing.

A full restore after a reboot re-applies every registered device's stored profile
in registry order, without changing the registry.

The model has four modules:

- `Registry` (registry.dfy): the `Device` record, the well-formedness of a
  registry (a map plus the dictionary's iteration order), and storing a new profile.
- `Profiles` (profiles.dfy): the configuration and its defaults (`vpn_table_id`
  `"100"`, `local_network` `"192.168.178.0/24"`, `device_file` `"devices.json"`).
  It also holds the argv lists issued per profile (`Commands`) and the concatenation
  issued by a full restore (`RestoreCommands`).
- `HostRules` (host_rules.dfy): an independent reference for what the issued
  commands do to the gateway's rule state.
  - Routing-policy rules are a multiset; FORWARD is a sequence.
  - A delete removes one matching rule, or nothing when there is none (the command
    fails and the failure is ignored).
  - `ip rule add` adds a rule; `iptables -A` appends one.

  Its lemmas prove what the tear-down-then-install pattern is for. The first three
  and the last hold on a host where each device holds at most one rule of each
  kind (a freshly booted gateway holds none):
  - each profile leaves exactly its own rules;
  - a profile change leaves no stale rule;
  - applying a profile twice is the same as applying it once;
  - other devices' rules are untouched (on any host);
  - a full restore reinstalls every device's rules.

  That condition is needed: each delete removes only one copy, so with two DROP
  rules for a device, "Normal" applied once leaves one and applied twice leaves
  none (`HostRules.DuplicateDropNotIdempotent`).
- `Gateway` (gateway.dfy): the class `GatewayManager`. Its `devices` and `order`
  fields are the registry and its `log` field is the list of issued commands.
  `ApplyProfile` and `InitAllDevices` update these fields in place and are proved
  against `Commands`, `RestoreCommands` and `SetProfile`.

The secure profile is spelled `"Sicher"` and appends its DROP rule with `-A`, so
`HostRules.ApplyEffect` puts it at the end of the FORWARD chain. An unknown IP is
rejected and no device is ever created.

## Model

| member | source | states |
|---|---|---|
| `Profiles.ConfigDefaults` | main.py:14-16 | a missing `vpn_table_id`, `local_network` or `device_file` key yields "100", "192.168.178.0/24" or "devices.json"; a present key is used as given |
| `Gateway.GatewayManager.constructor` | main.py:11-19 | the manager's configuration is the defaulted reading of the configuration file, and its registry is the loaded one |
| `Gateway.GatewayManager.Execute` | main.py:54-55 | issuing a command appends exactly that argv to the command log |
| `Profiles.Commands` | main.py:62-70 | the two deletions (`ip rule del`, `iptables -D FORWARD … -j DROP`) always come first; every command begins with "sudo"; only the first two are tear-downs and all later ones are installs; there are 3 commands for "VPN", 4 for "Sicher" and 2 for any other profile |
| `Profiles.VpnCommands` | main.py:66-67 | "VPN" issues the two deletions, then `sudo ip rule add from <ip> table <vpn_table>` |
| `Profiles.SicherCommands` | main.py:68-70 | "Sicher" issues the two deletions, the `ip rule add`, then `iptables -A FORWARD -s <ip> -d <local_net> -j DROP` (append, not insert) |
| `Profiles.OtherProfileCommands` | main.py:62-70 | any profile other than "VPN" and "Sicher" issues only the two deletions |
| `Registry.SetProfile` | main.py:72-73 | storing a profile keeps the key set, sets that device's profile, keeps its name, and keeps every other entry |
| `Registry.SetProfileWellFormed` | main.py:72-73 | storing a profile keeps the registry well formed with the same iteration order |
| `Gateway.GatewayManager.ApplyProfile` | main.py:57-76 | an unknown IP issues nothing and changes nothing; a known IP logs exactly `Commands(ip, profile)`, which does not depend on the previously stored profile; with `update_json` the registry becomes `SetProfile(...)`, and without it the registry is unchanged |
| `Gateway.ApplyTwice` | main.py:57-76 | applying the same (ip, profile) twice logs the same command list twice, and the registry ends as after one application |
| `Profiles.RestoreCommands` | main.py:78-81 | a restore issues between 2 and 4 commands per registered device, every one through sudo |
| `Profiles.RestoreCommandsStep` | main.py:80-81 | restoring one more device of the registry issues that device's commands for its stored profile after those of every device before it |
| `Gateway.GatewayManager.InitAllDevices` | main.py:78-82 | the log grows by the concatenation, in registry order, of each device's commands for its stored profile; the registry is unchanged |
| `HostRules.RemoveFirst` | main.py:64 | deleting a FORWARD rule removes one occurrence of it (or nothing when absent) |
| `HostRules.RemoveFirstIsFirst` | main.py:64 | the DROP rule that `iptables -D` removes is the first matching one; the rules before and after it stay in their order |
| `HostRules.RunTearDown` | main.py:62-64 | the tear-down removes one routing rule of the device and its first DROP rule, and nothing else |
| `HostRules.ApplyEffect` | main.py:62-70 | running a profile's commands yields `Applied`: the tear-down, then the routing rule for "VPN"/"Sicher", then for "Sicher" the DROP rule at the end of the FORWARD chain |
| `HostRules.ApplyInstallsProfile` | main.py:62-70 | on a host where the device holds at most one rule of each kind, afterwards it holds exactly one routing rule iff the profile is routed and exactly one DROP rule iff it is "Sicher" |
| `HostRules.ApplyLeavesOthers` | main.py:62-70 | applying a profile changes no rule of another device or table, and keeps the other FORWARD rules in their order |
| `HostRules.ApplyOverrides` | main.py:62-70 | on a host where the device holds at most one rule of each kind, applying profile A and then profile B ends in the same state as applying B alone: no stale rule survives a profile change |
| `HostRules.ApplyIdempotent` | main.py:62-70 | on a host where the device holds at most one rule of each kind, applying the same profile twice ends in the same state as applying it once |
| `HostRules.DuplicateDropNotIdempotent` | main.py:62-64 | without that condition idempotence fails: with two DROP rules for a device, "Normal" applied once leaves one DROP rule and applied twice leaves none |
| `HostRules.RunRestore` | main.py:78-81 | running a restore's commands leaves `Restored`: each registered device's stored profile applied in turn, in registry order |
| `HostRules.RestoreLeavesOthers` | main.py:78-81 | a restore never touches the rules of an IP that is not registered |
| `HostRules.RestoreInstallsProfiles` | main.py:78-81 | after a restore, every registered device holds exactly the rules its stored profile asks for, given at most one of each beforehand (none after a reboot) |

## Left out

- The JSON file input (`_load_json`, `_load_config`, main.py:21-43) is left out because it is file I/O. The constructor takes the parsed configuration (string values only) and the loaded registry. A missing or unreadable file corresponds to passing an empty map.
- Saving the registry (`_save_config`, main.py:45-52, called at main.py:74) is left out because it is file I/O. As written, this save can never succeed: it uses `self.config_path`, which is never assigned. The resulting exception is caught and logged, so the registry file is never rewritten.
- Running commands through `subprocess.run` (main.py:55) is a foreign call. It is modelled only as appending the argv to the log. Exit codes and output are discarded in the source.
- A missing `sudo` binary is not modelled. `subprocess.run` looks up only `argv[0]`, and that is `"sudo"` in every command. Without it, the first `_execute` (main.py:63) raises `FileNotFoundError` before any command runs and before the registry is updated. Nothing catches the exception, so it also ends `init_all_devices`. A missing `ip` or `iptables` raises nothing: `sudo` reports it through its exit status, which is discarded, as the log model assumes. The model does not capture the `sudo` failure.
- The semantics of `ip rule` and `iptables` in `HostRules` are an assumed model of those tools. In particular, the kernel's priority order among routing-policy rules is not modelled, because those rules are a multiset.
- Logging through loguru (main.py:23, 59, 76, 82) is left out.
- A registry entry without a `"name"` or `"profile"` key makes the source raise `KeyError` at main.py:76 or main.py:81. The `Device` record always has both fields, so the model does not capture that failure.
- A non-string configuration value is not modelled; the model types every setting as a string. In the source, a numeric `"vpn_table_id": 100` is placed into the argv unchanged, and `subprocess.run` (main.py:55) then raises `TypeError` on the first command (main.py:63). So every `apply_profile` raises before any command is issued and before the registry is updated, and `init_all_devices` stops at the first device. The model does not capture that failure.
- The command-line dispatch in `__main__` (main.py:84-92) is argument plumbing and is left out.

=== FILE: gateway.dfy ===
/** The gateway manager: its configuration, the device registry it updates in
    place, and the log of privileged commands it has issued (the model of running
    them; their results are discarded). */
module Gateway {
  import opened Registry
  import opened Profiles

  class GatewayManager {
    const config: Config
    var devices: map<string, Device>
    /** The registry's iteration order. */
    var order: seq<string>
    /** Every command issued so far, oldest first. */
    var log: seq<seq<string>>

    ghost predicate Valid()
      reads this
    {
      WellFormed(devices, order)
    }

    /** Reads the settings, taking the defaults for missing keys, and takes over the
        registry as loaded. */
    constructor (baseConfig: map<string, string>, loaded: map<string, Device>, loadedOrder: seq<string>)
      requires WellFormed(loaded, loadedOrder)
      ensures Valid()
      ensures config == ConfigFrom(baseConfig)
      ensures devices == loaded && order == loadedOrder && log == []
    {
      config := ConfigFrom(baseConfig);
      devices := loaded;
      order := loadedOrder;
      log := [];
    }

    /** Issues one command. */
    method Execute(argv: seq<string>)
      modifies this`log
      ensures log == old(log) + [argv]
    {
      log := log + [argv];
    }

    /** Applies a profile to a registered IP: tear-down, then the profile's install
        commands, then (when asked to) the new profile stored in the registry. An
        unknown IP is reported and changes nothing. */
    method ApplyProfile(ip: string, profile: string, updateJson: bool)
      requires Valid()
      modifies this`log, this`devices
      ensures Valid() && order == old(order)
      ensures ip !in old(devices) ==> log == old(log) && devices == old(devices)
      ensures ip in old(devices) ==> log == old(log) + Commands(ip, profile, config)
      ensures ip in old(devices) && updateJson ==> devices == SetProfile(old(devices), ip, profile)
      ensures !updateJson ==> devices == old(devices)
    {
      if ip !in devices {
        return;
      }
      Execute(RuleCommand("del", ip, config.vpnTable));
      Execute(ForwardDropCommand("-D", ip, config.localNet));
      if profile == "VPN" {
        Execute(RuleCommand("add", ip, config.vpnTable));
        VpnCommands(ip, config);
      } else if profile == "Sicher" {
        Execute(RuleCommand("add", ip, config.vpnTable));
        Execute(ForwardDropCommand("-A", ip, config.localNet));
        SicherCommands(ip, config);
      } else {
        OtherProfileCommands(ip, profile, config);
      }
      if updateJson {
        SetProfileWellFormed(devices, order, ip, profile);
        devices := SetProfile(devices, ip, profile);
      }
    }

    /** Re-applies every registered device's stored profile, in registry order,
        without touching the registry (run after a reboot). */
    method InitAllDevices()
      requires Valid()
      modifies this`log, this`devices
      ensures Valid()
      ensures devices == old(devices) && order == old(order)
      ensures log == old(log) + RestoreCommands(order, devices, config)
    {
      for i := 0 to |order|
        invariant Valid() && devices == old(devices) && order == old(order)
        invariant log == old(log) + RestoreCommands(order[..i], devices, config)
      {
        var ip := order[i];
        ApplyProfile(ip, devices[ip].profile, false);
        RestoreCommandsStep(order, i, devices, config);
        LogAssoc(old(log), RestoreCommands(order[..i], devices, config), Commands(ip, devices[ip].profile, config));
      }
      assert order[..|order|] == order;
    }
  }

  /** Regrouping appended command lists. */
  lemma LogAssoc(a: seq<seq<string>>, b: seq<seq<string>>, c: seq<seq<string>>)
    ensures a + (b + c) == (a + b) + c
  {
  }

  /** Applying the same profile twice issues the same command list twice: what is
      issued never depends on the profile stored before. */
  method ApplyTwice(m: GatewayManager, ip: string, profile: string)
    requires m.Valid() && ip in m.devices
    modifies m
    ensures m.Valid() && m.order == old(m.order)
    ensures m.log == old(m.log) + Commands(ip, profile, m.config) + Commands(ip, profile, m.config)
    ensures m.devices == SetProfile(old(m.devices), ip, profile)
  {
    m.ApplyProfile(ip, profile, true);
    m.ApplyProfile(ip, profile, true);
  }
}

=== FILE: host_rules.dfy ===
/** What the issued commands do to the gateway's rule state: the routing-policy
    rules as a multiset (the kernel orders them by priority, which is not modelled)
    and the FORWARD chain as a sequence. `ip rule del` and `iptables -D` remove one
    matching rule and leave the state unchanged when none exists (the command fails,
    and its failure is ignored); `ip rule add` adds one; `iptables -A` appends. */
module HostRules {
  import opened Registry
  import opened Profiles

  datatype RoutingRule = RoutingRule(src: string, table: string)
  datatype ForwardRule = ForwardRule(src: string, dst: string, target: string)
  datatype Host = Host(rules: multiset<RoutingRule>, forward: seq<ForwardRule>)

  /** The chain with the first occurrence of `x` taken out. */
  function RemoveFirst(s: seq<ForwardRule>, x: ForwardRule): (r: seq<ForwardRule>)
    ensures multiset(r) == multiset(s) - multiset{x}
    ensures x !in s ==> r == s
  {
    if s == [] then []
    else if s[0] == x then
      assert s == [s[0]] + s[1..];
      s[1..]
    else
      assert s == [s[0]] + s[1..];
      [s[0]] + RemoveFirst(s[1..], x)
  }

  /** The position of the first `x` in the chain. */
  function FirstIndex(s: seq<ForwardRule>, x: ForwardRule): (k: nat)
    requires x in s
    ensures k < |s| && s[k] == x && x !in s[..k]
  {
    if s[0] == x then 0
    else
      assert x in s[1..] by {
        var i :| 0 <= i < |s| && s[i] == x;
        assert s[1..][i - 1] == x;
      }
      var j := FirstIndex(s[1..], x);
      assert s[..j + 1] == [s[0]] + s[1..][..j];
      1 + j
  }

  /** Cutting position `j + 1` out of a chain is keeping its head and cutting
      position `j` out of its tail. */
  lemma SpliceTail(s: seq<ForwardRule>, j: nat)
    requires j + 1 < |s|
    ensures s[..j + 1] + s[j + 2..] == [s[0]] + (s[1..][..j] + s[1..][j + 1..])
  {
    assert s[..j + 1] == [s[0]] + s[1..][..j];
    assert s[j + 2..] == s[1..][j + 1..];
  }

  /** The occurrence taken out is the first one: the rules before it are kept, in
      their order, and so are the rules after it. */
  lemma {:induction false} RemoveFirstIsFirst(s: seq<ForwardRule>, x: ForwardRule)
    requires x in s
    ensures RemoveFirst(s, x) == s[..FirstIndex(s, x)] + s[FirstIndex(s, x) + 1..]
  {
    if s[0] == x {
      assert FirstIndex(s, x) == 0;
      assert RemoveFirst(s, x) == s[1..];
      assert s[..0] + s[1..] == s[1..];
    } else {
      var j := FirstIndex(s[1..], x);
      assert FirstIndex(s, x) == j + 1;
      assert RemoveFirst(s, x) == [s[0]] + RemoveFirst(s[1..], x);
      RemoveFirstIsFirst(s[1..], x);
      SpliceTail(s, j);
    }
  }

  /** Removing `x` from a chain whose only `x` is its last rule gives back the rest. */
  lemma {:induction false} RemoveFirstLast(s: seq<ForwardRule>, x: ForwardRule)
    requires x !in s
    ensures RemoveFirst(s + [x], x) == s
  {
    if s == [] {
      assert [] + [x] == [x];
    } else {
      assert (s + [x])[1..] == s[1..] + [x];
      RemoveFirstLast(s[1..], x);
    }
  }

  /** The chain with every occurrence of `x` taken out: the rules that belong to others. */
  function Without(s: seq<ForwardRule>, x: ForwardRule): seq<ForwardRule>
  {
    if s == [] then [] else (if s[0] == x then [] else [s[0]]) + Without(s[1..], x)
  }

  /** Removing one `x` leaves every other rule of the chain, in its order. */
  lemma {:induction false} WithoutRemoveFirst(s: seq<ForwardRule>, x: ForwardRule)
    ensures Without(RemoveFirst(s, x), x) == Without(s, x)
  {
    if s != [] && s[0] != x {
      WithoutRemoveFirst(s[1..], x);
      var r := [s[0]] + RemoveFirst(s[1..], x);
      assert r[1..] == RemoveFirst(s[1..], x);
    }
  }

  /** Appending `x` leaves every other rule of the chain, in its order. */
  lemma {:induction false} WithoutAppend(s: seq<ForwardRule>, x: ForwardRule)
    ensures Without(s + [x], x) == Without(s, x)
  {
    if s == [] {
      assert [] + [x] == [x];
    } else {
      assert (s + [x])[1..] == s[1..] + [x];
      WithoutAppend(s[1..], x);
    }
  }

  /** The effect of one command on the host; any argv of another shape changes nothing. */
  function Exec(argv: seq<string>, h: Host): Host
  {
    if |argv| == 8 && argv[0] == "sudo" && argv[1] == "ip" && argv[2] == "rule"
       && argv[4] == "from" && argv[6] == "table" then
      var rule := RoutingRule(argv[5], argv[7]);
      if argv[3] == "add" then h.(rules := h.rules + multiset{rule})
      else if argv[3] == "del" then h.(rules := h.rules - multiset{rule})
      else h
    else if |argv| == 10 && argv[0] == "sudo" && argv[1] == "iptables" && argv[3] == "FORWARD"
       && argv[4] == "-s" && argv[6] == "-d" && argv[8] == "-j" then
      var rule := ForwardRule(argv[5], argv[7], argv[9]);
      if argv[2] == "-A" then h.(forward := h.forward + [rule])
      else if argv[2] == "-D" then h.(forward := RemoveFirst(h.forward, rule))
      else h
    else h
  }

  /** The effect of a command list, first command first. */
  function Run(cmds: seq<seq<string>>, h: Host): Host
    decreases |cmds|
  {
    if cmds == [] then h else Run(cmds[1..], Exec(cmds[0], h))
  }

  lemma {:induction false} RunAppend(a: seq<seq<string>>, b: seq<seq<string>>, h: Host)
    ensures Run(a + b, h) == Run(b, Run(a, h))
    decreases |a|
  {
    if a == [] {
      assert a + b == b;
    } else {
      assert (a + b)[0] == a[0];
      assert (a + b)[1..] == a[1..] + b;
      RunAppend(a[1..], b, Exec(a[0], h));
    }
  }

  lemma RunCons(c: seq<string>, rest: seq<seq<string>>, h: Host)
    ensures Run([c] + rest, h) == Run(rest, Exec(c, h))
  {
    assert ([c] + rest)[1..] == rest;
  }

  /** The routing-policy rule that sends `ip` through the VPN table. */
  function RouteOf(ip: string, cfg: Config): RoutingRule { RoutingRule(ip, cfg.vpnTable) }

  /** The forwarding rule that keeps `ip` out of the local network. */
  function DropOf(ip: string, cfg: Config): ForwardRule { ForwardRule(ip, cfg.localNet, "DROP") }

  /** Profiles whose traffic is routed through the VPN table. */
  predicate Routed(profile: string) { profile == "VPN" || profile == "Sicher" }

  /** Profiles that are blocked from the local network. */
  predicate Blocked(profile: string) { profile == "Sicher" }

  // The facts asserted in the four lemmas below only guide the solver through
  // `Exec`'s branches: they tell the string literals ("del", "add", "-D", "-A") apart.
  lemma ExecRuleDel(ip: string, table: string, h: Host)
    ensures Exec(RuleCommand("del", ip, table), h) == h.(rules := h.rules - multiset{RoutingRule(ip, table)})
  {
    assert "del"[0] != "add"[0];
  }

  lemma ExecRuleAdd(ip: string, table: string, h: Host)
    ensures Exec(RuleCommand("add", ip, table), h) == h.(rules := h.rules + multiset{RoutingRule(ip, table)})
  {
    assert "add"[0] == 'a';
  }

  lemma ExecDropDel(ip: string, net: string, h: Host)
    ensures Exec(ForwardDropCommand("-D", ip, net), h) == h.(forward := RemoveFirst(h.forward, ForwardRule(ip, net, "DROP")))
  {
    var argv := ForwardDropCommand("-D", ip, net);
    var rule := ForwardRule(argv[5], argv[7], argv[9]);
    assert rule == ForwardRule(ip, net, "DROP");
    assert argv[2] != "-A" by { assert argv[2][1] != "-A"[1]; }
    assert Exec(argv, h) == h.(forward := RemoveFirst(h.forward, rule));
  }

  lemma ExecDropAppend(ip: string, net: string, h: Host)
    ensures Exec(ForwardDropCommand("-A", ip, net), h) == h.(forward := h.forward + [ForwardRule(ip, net, "DROP")])
  {
    assert "-A"[1] == 'A';
  }

  /** The rule state a profile leaves behind: one routing rule of the device and its
      first DROP rule are taken out; the routing rule is installed again for "VPN"
      and "Sicher"; for "Sicher" the DROP rule goes to the END of the FORWARD chain. */
  function Applied(ip: string, profile: string, cfg: Config, h: Host): Host
  {
    Host((h.rules - multiset{RouteOf(ip, cfg)}) + (if Routed(profile) then multiset{RouteOf(ip, cfg)} else multiset{}),
         RemoveFirst(h.forward, DropOf(ip, cfg)) + (if Blocked(profile) then [DropOf(ip, cfg)] else []))
  }

  /** The tear-down alone: what every profile starts from. */
  lemma RunTearDown(ip: string, cfg: Config, h: Host)
    ensures Run([RuleCommand("del", ip, cfg.vpnTable), ForwardDropCommand("-D", ip, cfg.localNet)], h)
         == Host(h.rules - multiset{RouteOf(ip, cfg)}, RemoveFirst(h.forward, DropOf(ip, cfg)))
  {
    var del, drop := RuleCommand("del", ip, cfg.vpnTable), ForwardDropCommand("-D", ip, cfg.localNet);
    ExecRuleDel(ip, cfg.vpnTable, h);
    var h1 := Exec(del, h);
    ExecDropDel(ip, cfg.localNet, h1);
    RunCons(drop, [], h1);
    RunCons(del, [drop], h);
  }

  lemma ApplyEffectVpn(ip: string, cfg: Config, h: Host)
    ensures Run(Commands(ip, "VPN", cfg), h) == Applied(ip, "VPN", cfg, h)
  {
    var tearDown := [RuleCommand("del", ip, cfg.vpnTable), ForwardDropCommand("-D", ip, cfg.localNet)];
    var add := RuleCommand("add", ip, cfg.vpnTable);
    var h2 := Run(tearDown, h);
    RunTearDown(ip, cfg, h);
    VpnCommands(ip, cfg);
    assert Commands(ip, "VPN", cfg) == tearDown + [add];
    RunAppend(tearDown, [add], h);
    RunCons(add, [], h2);
    ExecRuleAdd(ip, cfg.vpnTable, h2);
  }

  lemma ApplyEffectSicher(ip: string, cfg: Config, h: Host)
    ensures Run(Commands(ip, "Sicher", cfg), h) == Applied(ip, "Sicher", cfg, h)
  {
    var tearDown := [RuleCommand("del", ip, cfg.vpnTable), ForwardDropCommand("-D", ip, cfg.localNet)];
    var add, append := RuleCommand("add", ip, cfg.vpnTable), ForwardDropCommand("-A", ip, cfg.localNet);
    var h2 := Run(tearDown, h);
    RunTearDown(ip, cfg, h);
    SicherCommands(ip, cfg);
    assert Commands(ip, "Sicher", cfg) == tearDown + [add, append];
    RunAppend(tearDown, [add, append], h);
    RunCons(add, [append], h2);
    ExecRuleAdd(ip, cfg.vpnTable, h2);
    var h3 := Exec(add, h2);
    RunCons(append, [], h3);
    ExecDropAppend(ip, cfg.localNet, h3);
  }

  lemma ApplyEffectOther(ip: string, profile: string, cfg: Config, h: Host)
    requires profile != "VPN" && profile != "Sicher"
    ensures Run(Commands(ip, profile, cfg), h) == Applied(ip, profile, cfg, h)
  {
    RunTearDown(ip, cfg, h);
    OtherProfileCommands(ip, profile, cfg);
  }

  /** Running the commands of a profile leaves exactly the state `Applied` describes. */
  lemma ApplyEffect(ip: string, profile: string, cfg: Config, h: Host)
    ensures Run(Commands(ip, profile, cfg), h) == Applied(ip, profile, cfg, h)
  {
    if profile == "VPN" {
      ApplyEffectVpn(ip, cfg, h);
    } else if profile == "Sicher" {
      ApplyEffectSicher(ip, cfg, h);
    } else {
      ApplyEffectOther(ip, profile, cfg, h);
    }
  }

  /** A host on which `ip` holds at most one routing rule and at most one DROP rule. */
  predicate Tidy(h: Host, ip: string, cfg: Config)
  {
    h.rules[RouteOf(ip, cfg)] <= 1 && multiset(h.forward)[DropOf(ip, cfg)] <= 1
  }

  /** On a tidy host, `Applied` leaves exactly one routing rule of the device if the
      profile is routed and one DROP rule if it is blocked, and none otherwise. */
  lemma AppliedInstalls(ip: string, profile: string, cfg: Config, h: Host)
    requires Tidy(h, ip, cfg)
    ensures Applied(ip, profile, cfg, h).rules[RouteOf(ip, cfg)] == (if Routed(profile) then 1 else 0)
    ensures multiset(Applied(ip, profile, cfg, h).forward)[DropOf(ip, cfg)] == (if Blocked(profile) then 1 else 0)
  {
    var x := DropOf(ip, cfg);
    var cleared := RemoveFirst(h.forward, x);
    assert multiset(cleared)[x] == 0;
    if Blocked(profile) {
      assert multiset(cleared + [x]) == multiset(cleared) + multiset{x};
    } else {
      assert cleared + [] == cleared;
    }
  }

  /** On a tidy host, applying a profile leaves exactly the rules that profile asks
      for: one routing rule if it is routed, one DROP rule if it is blocked, and
      none otherwise. So rules never pile up over repeated applications. */
  lemma ApplyInstallsProfile(ip: string, profile: string, cfg: Config, h: Host)
    requires Tidy(h, ip, cfg)
    ensures Run(Commands(ip, profile, cfg), h).rules[RouteOf(ip, cfg)] == (if Routed(profile) then 1 else 0)
    ensures multiset(Run(Commands(ip, profile, cfg), h).forward)[DropOf(ip, cfg)] == (if Blocked(profile) then 1 else 0)
    ensures Tidy(Run(Commands(ip, profile, cfg), h), ip, cfg)
  {
    ApplyEffect(ip, profile, cfg, h);
    AppliedInstalls(ip, profile, cfg, h);
  }

  /** The chain a profile leaves behind keeps every other rule, in its order. */
  lemma AppliedForwardOthers(forward: seq<ForwardRule>, x: ForwardRule, appended: seq<ForwardRule>)
    requires appended == [] || appended == [x]
    ensures Without(RemoveFirst(forward, x) + appended, x) == Without(forward, x)
    ensures forall rule :: rule != x ==> multiset(RemoveFirst(forward, x) + appended)[rule] == multiset(forward)[rule]
  {
    var cleared := RemoveFirst(forward, x);
    WithoutRemoveFirst(forward, x);
    if appended == [] {
      assert cleared + appended == cleared;
    } else {
      WithoutAppend(cleared, x);
      assert multiset(cleared + appended) == multiset(cleared) + multiset{x};
    }
  }

  /** `Applied` touches no rule that belongs to another device or table. */
  lemma AppliedLeavesOthers(ip: string, profile: string, cfg: Config, h: Host)
    ensures forall rule :: rule != RouteOf(ip, cfg) ==> Applied(ip, profile, cfg, h).rules[rule] == h.rules[rule]
    ensures Without(Applied(ip, profile, cfg, h).forward, DropOf(ip, cfg)) == Without(h.forward, DropOf(ip, cfg))
    ensures forall rule :: rule != DropOf(ip, cfg) ==>
      multiset(Applied(ip, profile, cfg, h).forward)[rule] == multiset(h.forward)[rule]
  {
    AppliedForwardOthers(h.forward, DropOf(ip, cfg), if Blocked(profile) then [DropOf(ip, cfg)] else []);
  }

  /** `Applied` keeps the routing and DROP rule counts of any other IP. */
  lemma AppliedKeepsOtherIp(ip: string, profile: string, cfg: Config, h: Host, other: string)
    requires other != ip
    ensures Applied(ip, profile, cfg, h).rules[RouteOf(other, cfg)] == h.rules[RouteOf(other, cfg)]
    ensures multiset(Applied(ip, profile, cfg, h).forward)[DropOf(other, cfg)] == multiset(h.forward)[DropOf(other, cfg)]
  {
    AppliedLeavesOthers(ip, profile, cfg, h);
    assert RouteOf(other, cfg) != RouteOf(ip, cfg) && DropOf(other, cfg) != DropOf(ip, cfg);
  }

  /** Applying a profile touches no rule that belongs to another device or table,
      and keeps the other FORWARD rules in their order. */
  lemma ApplyLeavesOthers(ip: string, profile: string, cfg: Config, h: Host)
    ensures forall rule :: rule != RouteOf(ip, cfg) ==> Run(Commands(ip, profile, cfg), h).rules[rule] == h.rules[rule]
    ensures Without(Run(Commands(ip, profile, cfg), h).forward, DropOf(ip, cfg)) == Without(h.forward, DropOf(ip, cfg))
    ensures forall rule :: rule != DropOf(ip, cfg) ==>
      multiset(Run(Commands(ip, profile, cfg), h).forward)[rule] == multiset(h.forward)[rule]
  {
    ApplyEffect(ip, profile, cfg, h);
    AppliedLeavesOthers(ip, profile, cfg, h);
  }

  /** Without tidiness idempotence fails: each delete removes only one copy, so with
      two DROP rules for a device, "Normal" applied once leaves one and applied twice
      leaves none. */
  lemma DuplicateDropNotIdempotent(ip: string, cfg: Config)
    ensures var h := Host(multiset{}, [DropOf(ip, cfg), DropOf(ip, cfg)]);
      && multiset(Run(Commands(ip, "Normal", cfg), h).forward)[DropOf(ip, cfg)] == 1
      && multiset(Run(Commands(ip, "Normal", cfg), Run(Commands(ip, "Normal", cfg), h)).forward)[DropOf(ip, cfg)] == 0
  {
    var x := DropOf(ip, cfg);
    var h := Host(multiset{}, [x, x]);
    assert !Routed("Normal") && !Blocked("Normal");
    ApplyEffect(ip, "Normal", cfg, h);
    var h1 := Run(Commands(ip, "Normal", cfg), h);
    assert RemoveFirst([x, x], x) == [x];
    assert h1.forward == [x];
    ApplyEffect(ip, "Normal", cfg, h1);
    assert RemoveFirst([x], x) == [];
    assert Run(Commands(ip, "Normal", cfg), h1).forward == [];
  }

  /** With at most one routing rule of the device, deleting one after any
      re-installation gets back to the state right after the first deletion. */
  lemma RulesCleared(rules: multiset<RoutingRule>, route: RoutingRule, added: multiset<RoutingRule>)
    requires rules[route] <= 1
    requires added == multiset{} || added == multiset{route}
    ensures (rules - multiset{route}) + added - multiset{route} == rules - multiset{route}
  {
  }

  /** With at most one DROP rule of the device, removing the first one after any
      re-append gets back to the chain right after the first removal. */
  lemma ForwardCleared(forward: seq<ForwardRule>, x: ForwardRule, appended: seq<ForwardRule>)
    requires multiset(forward)[x] <= 1
    requires appended == [] || appended == [x]
    ensures RemoveFirst(RemoveFirst(forward, x) + appended, x) == RemoveFirst(forward, x)
  {
    var cleared := RemoveFirst(forward, x);
    assert x !in cleared by {
      assert multiset(cleared)[x] == 0;
    }
    if appended == [] {
      assert cleared + appended == cleared;
    } else {
      RemoveFirstLast(cleared, x);
    }
  }

  /** On a tidy host, applying one profile after another ends as if only the second
      had been applied: the tear-down removes whatever the first installed. */
  lemma ApplyOverrides(ip: string, first: string, second: string, cfg: Config, h: Host)
    requires Tidy(h, ip, cfg)
    ensures Run(Commands(ip, second, cfg), Run(Commands(ip, first, cfg), h)) == Run(Commands(ip, second, cfg), h)
  {
    var route, x := RouteOf(ip, cfg), DropOf(ip, cfg);
    var h1 := Run(Commands(ip, first, cfg), h);
    ApplyEffect(ip, first, cfg, h);
    ApplyEffect(ip, second, cfg, h1);
    ApplyEffect(ip, second, cfg, h);
    RulesCleared(h.rules, route, if Routed(first) then multiset{route} else multiset{});
    ForwardCleared(h.forward, x, if Blocked(first) then [x] else []);
  }

  /** Applying the same profile twice in a row ends as applying it once. */
  lemma ApplyIdempotent(ip: string, profile: string, cfg: Config, h: Host)
    requires Tidy(h, ip, cfg)
    ensures Run(Commands(ip, profile, cfg), Run(Commands(ip, profile, cfg), h)) == Run(Commands(ip, profile, cfg), h)
  {
    ApplyOverrides(ip, profile, profile, cfg, h);
  }

  /** The rule state a full restore leaves behind: each registered device's stored
      profile applied in turn, in registry order. */
  function Restored(order: seq<string>, devices: map<string, Device>, cfg: Config, h: Host): Host
    requires forall d :: d in order ==> d in devices
    decreases |order|
  {
    if order == [] then h
    else
      var last := order[|order| - 1];
      Applied(last, devices[last].profile, cfg, Restored(order[..|order| - 1], devices, cfg, h))
  }

  /** Running the restore commands leaves exactly the state `Restored` describes. */
  lemma {:induction false} RunRestore(order: seq<string>, devices: map<string, Device>, cfg: Config, h: Host)
    requires forall d :: d in order ==> d in devices
    ensures Run(RestoreCommands(order, devices, cfg), h) == Restored(order, devices, cfg, h)
    decreases |order|
  {
    if order != [] {
      var n := |order| - 1;
      var last := order[n];
      var prefix := order[..n];
      assert forall d :: d in prefix ==> d in order;
      var profile := devices[last].profile;
      var done, cmds := RestoreCommands(prefix, devices, cfg), Commands(last, profile, cfg);
      var mid := Restored(prefix, devices, cfg, h);
      assert RestoreCommands(order, devices, cfg) == done + cmds;
      RunRestore(prefix, devices, cfg, h);
      assert Run(done, h) == mid;
      RunAppend(done, cmds, h);
      ApplyEffect(last, profile, cfg, mid);
    }
  }

  /** `Restored` never touches the rules of an IP outside the registry order. */
  lemma {:induction false} RestoredLeavesOthers(order: seq<string>, devices: map<string, Device>, cfg: Config, h: Host, ip: string)
    requires forall d :: d in order ==> d in devices
    requires ip !in order
    ensures Restored(order, devices, cfg, h).rules[RouteOf(ip, cfg)] == h.rules[RouteOf(ip, cfg)]
    ensures multiset(Restored(order, devices, cfg, h).forward)[DropOf(ip, cfg)] == multiset(h.forward)[DropOf(ip, cfg)]
    decreases |order|
  {
    if order != [] {
      var n := |order| - 1;
      var last := order[n];
      var prefix := order[..n];
      assert forall d :: d in prefix ==> d in order;
      var profile := devices[last].profile;
      var mid := Restored(prefix, devices, cfg, h);
      assert ip != last by { assert last in order; }
      RestoredLeavesOthers(prefix, devices, cfg, h, ip);
      AppliedKeepsOtherIp(last, profile, cfg, mid, ip);
    }
  }

  /** Restoring a registry never touches the rules of an IP outside it. */
  lemma RestoreLeavesOthers(order: seq<string>, devices: map<string, Device>, cfg: Config, h: Host, ip: string)
    requires forall d :: d in order ==> d in devices
    requires ip !in order
    ensures Run(RestoreCommands(order, devices, cfg), h).rules[RouteOf(ip, cfg)] == h.rules[RouteOf(ip, cfg)]
    ensures multiset(Run(RestoreCommands(order, devices, cfg), h).forward)[DropOf(ip, cfg)] == multiset(h.forward)[DropOf(ip, cfg)]
  {
    RunRestore(order, devices, cfg, h);
    RestoredLeavesOthers(order, devices, cfg, h, ip);
  }

  /** In `Restored`, every device of a duplicate-free registry order that started
      tidy holds exactly the rules its stored profile asks for. */
  lemma {:induction false} RestoredInstalls(order: seq<string>, devices: map<string, Device>, cfg: Config, h: Host)
    requires forall d :: d in order ==> d in devices
    requires forall i, j :: 0 <= i < j < |order| ==> order[i] != order[j]
    requires forall d :: d in order ==> Tidy(h, d, cfg)
    ensures forall d :: d in order ==>
      && Restored(order, devices, cfg, h).rules[RouteOf(d, cfg)] == (if Routed(devices[d].profile) then 1 else 0)
      && multiset(Restored(order, devices, cfg, h).forward)[DropOf(d, cfg)] == (if Blocked(devices[d].profile) then 1 else 0)
  {
    forall d | d in order
      ensures Restored(order, devices, cfg, h).rules[RouteOf(d, cfg)] == (if Routed(devices[d].profile) then 1 else 0)
      ensures multiset(Restored(order, devices, cfg, h).forward)[DropOf(d, cfg)] == (if Blocked(devices[d].profile) then 1 else 0)
    {
      RestoredInstallsAt(order, devices, cfg, h, d);
    }
  }

  /** Splitting the last element off a duplicate-free sequence leaves a
      duplicate-free prefix that holds every other element and not the last. */
  lemma SplitLast(order: seq<string>)
    requires order != []
    requires forall i, j :: 0 <= i < j < |order| ==> order[i] != order[j]
    ensures var prefix := order[..|order| - 1];
      && (forall i, j :: 0 <= i < j < |prefix| ==> prefix[i] != prefix[j])
      && order[|order| - 1] !in prefix
      && forall e :: e in order ==> e == order[|order| - 1] || e in prefix
  {
    var prefix := order[..|order| - 1];
    assert order == prefix + [order[|order| - 1]];
  }

  /** The one-device form of `RestoredInstalls`, by induction on `order`: the last
      device's rules come from `AppliedInstalls`, every earlier device's survive it. */
  lemma {:induction false} RestoredInstallsAt(order: seq<string>, devices: map<string, Device>, cfg: Config, h: Host, d: string)
    requires forall d :: d in order ==> d in devices
    requires forall i, j :: 0 <= i < j < |order| ==> order[i] != order[j]
    requires d in order && Tidy(h, d, cfg)
    ensures Restored(order, devices, cfg, h).rules[RouteOf(d, cfg)] == (if Routed(devices[d].profile) then 1 else 0)
    ensures multiset(Restored(order, devices, cfg, h).forward)[DropOf(d, cfg)] == (if Blocked(devices[d].profile) then 1 else 0)
    decreases |order|
  {
    var n := |order| - 1;
    var last := order[n];
    var prefix := order[..n];
    SplitLast(order);
    var profile := devices[last].profile;
    var mid := Restored(prefix, devices, cfg, h);
    if d == last {
      RestoredLeavesOthers(prefix, devices, cfg, h, last);
      AppliedInstalls(last, profile, cfg, mid);
    } else {
      RestoredInstallsAt(prefix, devices, cfg, h, d);
      AppliedKeepsOtherIp(last, profile, cfg, mid, d);
    }
  }


  /** After a restore over a registry whose devices each hold at most one rule of
      each kind (a freshly booted gateway holds none), every registered device holds
      exactly the rules its stored profile asks for. */
  lemma RestoreInstallsProfiles(order: seq<string>, devices: map<string, Device>, cfg: Config, h: Host)
    requires forall d :: d in order ==> d in devices
    requires forall i, j :: 0 <= i < j < |order| ==> order[i] != order[j]
    requires forall d :: d in order ==> Tidy(h, d, cfg)
    ensures forall d :: d in order ==>
      && Run(RestoreCommands(order, devices, cfg), h).rules[RouteOf(d, cfg)] == (if Routed(devices[d].profile) then 1 else 0)
      && multiset(Run(RestoreCommands(order, devices, cfg), h).forward)[DropOf(d, cfg)] == (if Blocked(devices[d].profile) then 1 else 0)
  {
    RunRestore(order, devices, cfg, h);
    RestoredInstalls(order, devices, cfg, h);
  }
}

=== FILE: profiles.dfy ===
/** Translation of a device's profile into the privileged commands that tear down
    and install its routing-policy and forwarding rules. */
module Profiles {
  import opened Registry

  const DefaultDeviceFile := "devices.json"
  const DefaultVpnTable := "100"
  const DefaultLocalNetwork := "192.168.178.0/24"

  /** The settings the manager reads from its configuration file. */
  datatype Config = Config(deviceFile: string, vpnTable: string, localNet: string)

  /** A dictionary lookup with a default, as the configuration is read. */
  function Setting(base: map<string, string>, key: string, default: string): string
  {
    if key in base then base[key] else default
  }

  /** The configuration taken from the parsed configuration file. */
  function ConfigFrom(base: map<string, string>): Config
  {
    Config(Setting(base, "device_file", DefaultDeviceFile),
           Setting(base, "vpn_table_id", DefaultVpnTable),
           Setting(base, "local_network", DefaultLocalNetwork))
  }

  /** Every key the file omits takes its default; every key it gives is used as given. */
  lemma ConfigDefaults(base: map<string, string>)
    ensures "vpn_table_id" !in base ==> ConfigFrom(base).vpnTable == "100"
    ensures "local_network" !in base ==> ConfigFrom(base).localNet == "192.168.178.0/24"
    ensures "device_file" !in base ==> ConfigFrom(base).deviceFile == "devices.json"
    ensures "vpn_table_id" in base ==> ConfigFrom(base).vpnTable == base["vpn_table_id"]
    ensures "local_network" in base ==> ConfigFrom(base).localNet == base["local_network"]
    ensures "device_file" in base ==> ConfigFrom(base).deviceFile == base["device_file"]
  {
  }

  /** `ip rule <op> from <ip> table <table>`, run through sudo. */
  function RuleCommand(op: string, ip: string, table: string): seq<string>
  {
    ["sudo", "ip", "rule", op, "from", ip, "table", table]
  }

  /** `iptables <op> FORWARD -s <ip> -d <net> -j DROP`, run through sudo. */
  function ForwardDropCommand(op: string, ip: string, net: string): seq<string>
  {
    ["sudo", "iptables", op, "FORWARD", "-s", ip, "-d", net, "-j", "DROP"]
  }

  /** A command that removes a rule. */
  predicate IsTearDown(argv: seq<string>)
  {
    |argv| >= 4 && ((argv[1] == "ip" && argv[3] == "del") || (argv[1] == "iptables" && argv[2] == "-D"))
  }

  /** A command that installs a rule. */
  predicate IsInstall(argv: seq<string>)
  {
    |argv| >= 4 && ((argv[1] == "ip" && argv[3] == "add") || (argv[1] == "iptables" && argv[2] == "-A"))
  }

  /** The commands issued, in order, when a profile is applied to a registered IP:
      the two deletions always come first; "VPN" then adds the routing-policy rule,
      "Sicher" adds it and appends the forwarding DROP rule, and every other profile
      name installs nothing. */
  function Commands(ip: string, profile: string, cfg: Config): (r: seq<seq<string>>)
    ensures |r| == (if profile == "VPN" then 3 else if profile == "Sicher" then 4 else 2)
    ensures r[0] == RuleCommand("del", ip, cfg.vpnTable)
    ensures r[1] == ForwardDropCommand("-D", ip, cfg.localNet)
    ensures forall k :: 0 <= k < |r| ==> |r[k]| > 0 && r[k][0] == "sudo"
    ensures forall k :: 0 <= k < |r| ==> (IsTearDown(r[k]) <==> k < 2)
    ensures forall k :: 0 <= k < |r| ==> (IsInstall(r[k]) <==> 2 <= k)
  {
    var tearDown := [RuleCommand("del", ip, cfg.vpnTable), ForwardDropCommand("-D", ip, cfg.localNet)];
    if profile == "VPN" then
      tearDown + [RuleCommand("add", ip, cfg.vpnTable)]
    else if profile == "Sicher" then
      tearDown + [RuleCommand("add", ip, cfg.vpnTable), ForwardDropCommand("-A", ip, cfg.localNet)]
    else
      tearDown
  }

  /** "VPN": the two deletions, then the routing-policy rule into the VPN table. */
  lemma VpnCommands(ip: string, cfg: Config)
    ensures Commands(ip, "VPN", cfg) ==
      [["sudo", "ip", "rule", "del", "from", ip, "table", cfg.vpnTable],
       ["sudo", "iptables", "-D", "FORWARD", "-s", ip, "-d", cfg.localNet, "-j", "DROP"],
       ["sudo", "ip", "rule", "add", "from", ip, "table", cfg.vpnTable]]
  {
  }

  /** "Sicher": the two deletions, the routing-policy rule, then the DROP rule
      appended (-A) to the end of the FORWARD chain. */
  lemma SicherCommands(ip: string, cfg: Config)
    ensures Commands(ip, "Sicher", cfg) ==
      [["sudo", "ip", "rule", "del", "from", ip, "table", cfg.vpnTable],
       ["sudo", "iptables", "-D", "FORWARD", "-s", ip, "-d", cfg.localNet, "-j", "DROP"],
       ["sudo", "ip", "rule", "add", "from", ip, "table", cfg.vpnTable],
       ["sudo", "iptables", "-A", "FORWARD", "-s", ip, "-d", cfg.localNet, "-j", "DROP"]]
  {
  }

  /** Any other profile name ("Normal", or one nobody defined) issues only the deletions. */
  lemma OtherProfileCommands(ip: string, profile: string, cfg: Config)
    requires profile != "VPN" && profile != "Sicher"
    ensures Commands(ip, profile, cfg) ==
      [["sudo", "ip", "rule", "del", "from", ip, "table", cfg.vpnTable],
       ["sudo", "iptables", "-D", "FORWARD", "-s", ip, "-d", cfg.localNet, "-j", "DROP"]]
  {
  }

  /** The commands issued when every registered device is restored, in registry
      order, each with the profile the registry stores for it. */
  function RestoreCommands(order: seq<string>, devices: map<string, Device>, cfg: Config): (r: seq<seq<string>>)
    requires forall ip :: ip in order ==> ip in devices
    ensures 2 * |order| <= |r| <= 4 * |order|
    ensures forall k :: 0 <= k < |r| ==> |r[k]| > 0 && r[k][0] == "sudo"
  {
    if order == [] then []
    else
      var last := order[|order| - 1];
      RestoreCommands(order[..|order| - 1], devices, cfg) + Commands(last, devices[last].profile, cfg)
  }

  /** Restoring one more device of the registry issues that device's commands after
      those of the devices before it. */
  lemma RestoreCommandsStep(order: seq<string>, i: nat, devices: map<string, Device>, cfg: Config)
    requires i < |order|
    requires forall ip :: ip in order ==> ip in devices
    ensures forall ip :: ip in order[..i] ==> ip in devices
    ensures RestoreCommands(order[..i + 1], devices, cfg)
         == RestoreCommands(order[..i], devices, cfg) + Commands(order[i], devices[order[i]].profile, cfg)
  {
    assert order[..i + 1][..i] == order[..i];
    assert forall ip :: ip in order[..i + 1] ==> ip in order;
  }
}

=== FILE: registry.dfy ===
/** The device registry: IP address -> display name and stored profile name,
    together with the iteration order of the underlying dictionary. */
module Registry {

  /** One registry entry. The profile is kept as the raw string the registry stores. */
  datatype Device = Device(name: string, profile: string)

  /** A registry as a dictionary gives it: every key appears exactly once in the
      iteration order, and the order lists nothing but keys. */
  ghost predicate WellFormed(devices: map<string, Device>, order: seq<string>)
  {
    && (forall i, j :: 0 <= i < j < |order| ==> order[i] != order[j])
    && (forall ip :: ip in devices <==> ip in order)
  }

  /** Overwrites the stored profile of a registered device; its name and every
      other entry are kept. */
  function SetProfile(devices: map<string, Device>, ip: string, profile: string): (r: map<string, Device>)
    requires ip in devices
    ensures r.Keys == devices.Keys
    ensures r[ip].profile == profile && r[ip].name == devices[ip].name
    ensures forall other :: other in devices && other != ip ==> r[other] == devices[other]
  {
    devices[ip := devices[ip].(profile := profile)]
  }

  /** Storing a profile keeps the registry well formed with the same order. */
  lemma SetProfileWellFormed(devices: map<string, Device>, order: seq<string>, ip: string, profile: string)
    requires WellFormed(devices, order) && ip in devices
    ensures WellFormed(SetProfile(devices, ip, profile), order)
  {
  }
}
